=== FILE: README.md ===
# MultiFilter, modelled in Dafny

A model of the signal path of the MultiFilter LV2 plugin (`multifilter.c`).
MultiFilter is a mono-in, stereo-out filter with six selectable algorithms and
an LFO that modulates cutoff and resonance. The model covers `activate()` and
the per-sample logic of `run()`. It is written as pure functions over immutable
state, with one module per part of the plugin:

- `Numeric`: the value of pi the plugin uses, C's double-to-int truncation,
  and the `(int)(v + 0.5f)` rounding of selector controls. It also holds the
  C math library as a parameter `Libm`.
- `Bits`: the `& 4095` index mask, as a bitwise AND on the 32-bit
  two's-complement pattern of a C `int`. It is proved equal to the Euclidean
  remainder modulo 4096.
- `Lfo`: the six LFO shapes, the phase with its wrap at 2*pi, the
  sample-and-hold refresh, the step quantizer and the one-pole slew.
- `Conditioner`: LFO modulation of cutoff and resonance, and the clamps.
- `Comb`: the 4096-sample delay line with fractional, interpolated reads.
  It also relates the ring buffer to the plain history of written values.
  From that relation the comb recurrence is derived.
- `Filters`: the scalars derived from the resonance, and the six algorithms.
  These are the RBJ lowpass biquad, the state-variable lowpass, the tanh
  ladder, the three-formant vowel bank, the comb and the ring/amplitude
  modulator. The module also holds the filter-type dispatch.
- `MultiFilter`: the instance state, `activate()`, one sample, a block of
  samples, and `run()` with its early return when a checked port is unbound.

All arithmetic is on `real`. The transcendental functions (`sin`, `cos`,
`tan`, `exp`, `tanh`, `pow`) are fields of the `Libm` value every operation
receives. The only fact about them that the model uses is that sine lies in
[-1, 1] (`SinBounded`). The random number drawn by the sample-and-hold LFO is
supplied by the caller, one value per sample.

Three behaviours of the code are easy to misread:

- At resonance 0.707 the comb feedback is 0 (multifilter.c:177), so
  `wet = in + 0 * interp_s` is the undelayed input (multifilter.c:181)
  (`MultiFilter.CombMode`, `Comb.Step`).
- The slewed LFO stays in [0, 1] when the LFO rate lies in [0, sampleRate) and
  the smoothing factor `pow(0.001, slew)` lies in [0, 1]: every slew step then
  lands between the old value and a raw shape value in [0, 1] (`Lfo.Tick`,
  `MultiFilter.LfoStaysSane`). Outside those conditions it can leave [0, 1].
  A negative slew knob makes the factor exceed 1, so the slew overshoots. The
  phase can escape [0, 2*pi) in two ways. A negative rate drives it below 0
  with no wrap involved, because multifilter.c:119-120 only wraps downward;
  ramp up and the triangle then read below 0, and ramp down reads above 1. A
  rate of at least the sample rate makes the increment at least 2*pi; after a
  wrap, one subtraction of 2*pi can leave the phase at or above 2*pi, where
  ramp up reads at least 1 and ramp down and the triangle at most 0.
- The selectors are read with `(int)(v + 0.5f)` (multifilter.c:97-100). That
  is truncation toward zero, not rounding, so every value in (-1.5, -0.5)
  reads as 0 (`Numeric.RoundKnob`).

## Model

| member | source | states |
|---|---|---|
| Numeric.RoundKnob | multifilter.c:97-100 | a selector control reads as floor(v + 0.5) from -0.5 upward, as 0 on (-1.5, -0.5) because C truncates toward zero, and as ceil(v + 0.5), at most -1, from -1.5 downward |
| Numeric.RoundKnobWholeNumbers | multifilter.c:97-100 | a selector set to a whole number n >= 0 selects exactly n |
| Numeric.Trunc | multifilter.c:105 | the C conversion to int lies within one of its argument, on the side toward zero |
| Bits.TwosComplement | multifilter.c:180-182 | the bit pattern of an int32 is the value itself when non-negative, and the value plus 2^32 otherwise |
| Bits.AndLowMask | multifilter.c:180-182 | ANDing with the mask of the k low bits (2^k - 1) gives the remainder modulo 2^k, for every k |
| Bits.Mask4095 | multifilter.c:180-182 | the masked index of any int32, negative read positions included, is a valid buffer index congruent to x modulo 4096 |
| Bits.MaskIsBitAnd | multifilter.c:180-182 | `x & 4095`, taken bit by bit on the 32-bit two's-complement pattern of x, equals the Euclidean remainder x mod 4096 and so the index Mask4095 gives |
| Lfo.Raw | multifilter.c:108-116 | for a phase in [0, 2*pi) every shape lies in [0, 1]; the square is 0 or 1; sample-and-hold returns the held value; an unknown shape gives 0 |
| Lfo.RampsComplement | multifilter.c:112-113 | ramp up and ramp down sum to 1 at every phase |
| Lfo.TriangleAndSquareHalves | multifilter.c:111-114 | the triangle is symmetric about pi and peaks at 1 there; the square is high exactly when the phase is below pi |
| Lfo.Advance | multifilter.c:118-120 | the phase advances by the increment, minus 2*pi when it reaches 2*pi; it stays in [0, 2*pi) and drops below its old value exactly when it wraps |
| Lfo.NextHeld | multifilter.c:119-122 | the sample-and-hold value changes only on a phase wrap with the sample-and-hold shape, and then takes the fresh random draw |
| Lfo.HoldPeriod | multifilter.c:105 | the hold period is at least 1 and is one more than the truncated knob^2 * sampleRate / 2 |
| Lfo.Quantize | multifilter.c:124-128 | the counter restarts at 0 and latches the raw value when it reaches the period, and otherwise counts up keeping the latched value |
| Lfo.QuantizeHoldsEveryPeriod | multifilter.c:124-128 | from a fresh counter, after n samples the counter is n mod period and the latched value is the raw value of the last sample whose number is a multiple of the period |
| Lfo.AfterSteps | multifilter.c:129 | the latched value is used when the steps knob exceeds 0.001, and the raw value otherwise |
| Lfo.Slew | multifilter.c:131 | the distance to the target shrinks by the factor (1 - f); f = 1 jumps to the target, f = 0 holds, and f in [0, 1] lands between the old value and the target |
| Lfo.Tick | multifilter.c:107-132 | one LFO sample advances the phase, refreshes the held value, runs the quantizer on this sample's raw shape and slews toward the stepped or raw value; it keeps every field in range and the counter below the period, and outputs the slew register; with stepping off and no smoothing it outputs the raw shape, and with stepping on and no smoothing the value latched by this sample's quantizer |
| Conditioner.ClampCutoff | multifilter.c:137-138 | the cutoff ends in (0, 0.49 * sampleRate]; it is unchanged when already in range, becomes 20 Hz when below that (if the ceiling allows), and becomes the ceiling when above it, the ceiling winning when it is below 20 Hz |
| Conditioner.ClampResonance | multifilter.c:139-140 | the resonance ends in [0.707, 20], and is unchanged when already inside |
| Conditioner.ClampsMonotoneAndIdempotent | multifilter.c:137-140 | both clamps preserve order, and clamping twice changes nothing |
| Conditioner.Condition | multifilter.c:134-140 | the modulated parameters are always safe for the filters: the cutoff is base + lfo * depth through the cutoff clamp and the resonance is base + lfo * depth through the resonance clamp, so they keep base + lfo * depth whenever that is already in range |
| Comb.Silent | multifilter.c:83-84 | after activation every buffer cell is zero and the write position is 0 |
| Comb.Delay | multifilter.c:175-176 | the delay is sampleRate / cutoff, capped at 4095 and raised to at least 1 |
| Comb.ReadTap | multifilter.c:178-180 | the two cells read are the cell ceil(d) behind the write position and the one after it, both wrapped into the buffer; the fraction is ceil(d) - d in [0, 1) |
| Comb.Read | multifilter.c:178-181 | the delayed read lies between the two cells it reads, and a delay of exactly 1 returns the most recently written cell |
| Comb.Interpolate | multifilter.c:181 | linear interpolation between the two cells, giving the older one at fraction 0 and lying between them |
| Comb.Write | multifilter.c:182 | the value lands at the write position, no other cell changes, and the position moves on by one modulo 4096 |
| Comb.Step | multifilter.c:178-182 | the wet sample is the input plus feedback times the delayed read; it is written back; zero feedback passes the input unchanged |
| Comb.SilentRemembersSilence | multifilter.c:83-84 | the cleared buffer holds a history of 4096 silent samples |
| Comb.WriteRemembers | multifilter.c:182 | writing a sample extends the history the ring buffer holds by that sample |
| Comb.ReadRemembered | multifilter.c:178-181 | a delayed read returns the history sample ceil(d) back, interpolated toward the next newer one |
| Comb.CombRecurrence | multifilter.c:178-182 | each comb output is input + feedback * (output delayed by d samples), and that output joins the history |
| Comb.WholeDelay | multifilter.c:178-181 | with a whole-number delay n the feedback term is exactly the output n samples back |
| Filters.NormalizedResonance | multifilter.c:184 | the resonance maps linearly and invertibly from [0.707, 20] onto [0, 1], with 0.707 going to 0 and 20 to 1 |
| Filters.CombFeedback | multifilter.c:177 | the comb feedback lies in [0, 0.99] and is zero exactly at resonance 0.707 |
| Filters.LadderFeedback | multifilter.c:147 | the ladder feedback lies in [0, 4.2], is zero exactly at 0.707 and 4.2 exactly at 20 |
| Filters.FormantGain | multifilter.c:163 | the vowel bank's gain compensation lies in [1, 4] |
| Filters.Df2t | multifilter.c:151 | a transposed direct-form II section at rest with silent input stays at rest and outputs 0 |
| Filters.Df2tSteadyState | multifilter.c:151 | a section whose coefficients have DC gain g keeps its steady state under a constant input and outputs g times it |
| Filters.DenominatorPositive | multifilter.c:145 | a0 = 1 + sin(w0)/(2q) and 1 - sin(w0)/(2q) are positive for every q >= 0.707, so the division by a0 is defined |
| Filters.Lowpass | multifilter.c:145-150 | the normalised lowpass coefficients satisfy b0 + b1 + b2 = 1 + a1 + a2 (unity DC gain), with b2 = b0 and b1 = 2*b0 |
| Filters.LowpassUnityDc | multifilter.c:149-151 | the lowpass biquad passes a constant input through unchanged in its steady state |
| Filters.Bandpass | multifilter.c:167-169 | the formant bandpass has b1 = 0 and b2 = -b0, so its numerator sums to zero at DC |
| Filters.BiquadStep | multifilter.c:148-152 | the lowpass biquad at rest with silent input stays at rest and outputs 0 |
| Filters.SvfDenominatorPositive | multifilter.c:154 | the SVF denominator 1 + 2Rg + g^2 is positive for every g when the resonance is at least 0.707 |
| Filters.SvfStep | multifilter.c:153-156 | the output is the new lowpass register; with the bandpass register at 0 and the input equal to the lowpass register nothing moves |
| Filters.SvfUnityDc | multifilter.c:154-156 | the state-variable lowpass passes DC at unity gain and is silent at rest |
| Filters.LadderStage | multifilter.c:158-160 | a ladder stage whose input equals its own value does not move |
| Filters.LadderStep | multifilter.c:157-160 | the first stage is driven by the input minus k_303 times the old fourth stage, each later stage by the stage before it as already updated in this sample, and the output is the updated fourth stage; a silent ladder at rest stays at rest |
| Filters.VowelTableShape | multifilter.c:14-17 | the vowel table has 5 vowels of 3 formants, each with a positive frequency and a Q of at least 8 |
| Filters.FormantFrequency | multifilter.c:165-166 | a formant's shifted frequency is unchanged at or below 0.49 * sampleRate and becomes exactly 0.49 * sampleRate above it |
| Filters.FormantStep | multifilter.c:165-171 | one formant section at rest with silent input stays at rest and outputs 0 |
| Filters.VowelStep | multifilter.c:161-173 | the three formants run in parallel on the input with frequencies shifted by 2^((cutoff - 1000) / 1000), each keeping its own register pair; the output is their sum times the gain compensation; all-zero registers with silent input give 0 with the registers unchanged |
| Filters.FormantBlocksDc | multifilter.c:167-171 | each formant is a bandpass: in its steady state under a constant input it outputs 0 |
| Filters.RingModulator | multifilter.c:184-186 | the modulator crossfades from (sin + 1) / 2 at normalised resonance 0 to sin at 1 |
| Filters.RingModulatorBetween | multifilter.c:184-186 | with normalised resonance in [0, 1] the modulator lies between the AM and the RM signal |
| Filters.RingStep | multifilter.c:183-190 | the output is input times modulator, silent input gives silence, and the oscillator phase stays in [0, 2*pi) |
| Filters.ModeOf | multifilter.c:148-183 | filter types 0 to 4 each select their own filter; every other value, 5 and out-of-range values alike, selects the ring modulator |
| Filters.ModeCodesRoundTrip | multifilter.c:148-183 | modes and filter-type codes 0..5 correspond one to one |
| MultiFilter.Activate | multifilter.c:76-87 | activation zeroes every filter register and the delay line, puts both phases and the write position at 0, clears the LFO, and keeps the sample rate |
| MultiFilter.ActivateForgets | multifilter.c:76-87 | two instances at the same sample rate are identical after activation, and activating twice is the same as once |
| MultiFilter.PhaseIncrement | multifilter.c:103 | the LFO increment is 2*pi times rate / sampleRate, and is below 2*pi for a rate below the sample rate |
| MultiFilter.ReadBlock | multifilter.c:95-105 | base cutoff, resonance, mix, both depths and the step knob are the port values; the mode, vowel and shape are the rounded selector controls; the smoothing factor is pow(0.001, slew); the increment is the phase increment of the rate; the hold period is at least 1 |
| MultiFilter.Filter | multifilter.c:148-190 | the selected mode's filter, and only it, runs on the sample: each of the six modes gives that filter's output and that filter's new state, with every other part of the state unchanged; the state stays valid, and silence at rest stays silence at rest |
| MultiFilter.CombMode | multifilter.c:174-182 | in comb mode the output follows the comb recurrence on the remembered history, and at resonance 0.707 equals the dry input |
| MultiFilter.Mix | multifilter.c:192 | the output moves from dry toward wet by the fraction mix: mix 0 is dry, mix 1 is wet |
| MultiFilter.MixBetween | multifilter.c:192 | with mix in [0, 1] the output lies between the dry and the wet sample |
| MultiFilter.Sample | multifilter.c:107-194 | one sample first ticks the LFO, then runs the selected filter on the cutoff and resonance conditioned by this sample's LFO value, and outputs the mix of that filter's output with the input; it keeps the state valid, changes only the LFO and the selected filter, passes the input through at mix 0, and keeps silence at rest |
| MultiFilter.Process | multifilter.c:107-195 | a block produces one output per input and leaves a valid state at the same sample rate |
| MultiFilter.ProcessSplit | multifilter.c:107-195 | processing two blocks one after the other, the second starting from the state the first left, gives the same outputs and final state as processing their concatenation |
| MultiFilter.QuietBlock | multifilter.c:107-195 | from a state at rest a silent block gives silence and leaves the state at rest |
| MultiFilter.SilenceAfterActivation | multifilter.c:76-87 | after activation a silent block gives silence in every mode |
| MultiFilter.DryBlock | multifilter.c:192-194 | with mix 0 the output block equals the input block |
| MultiFilter.LfoStaysSane | multifilter.c:107-132 | over a whole block the LFO phase stays in [0, 2*pi) and its values in [0, 1] |
| MultiFilter.Run | multifilter.c:91-196 | with cutoff, LFO rate or LFO slew unbound nothing changes and nothing is written; otherwise both channels get the block `Process` produces from the controls read by ReadBlock, and the state is the one `Process` leaves |
| MultiFilter.DryRun | multifilter.c:192-194 | with the checked ports bound and the mix control at 0, both channels receive the input unchanged |

## Left out

- LV2 plumbing is not modelled: `instantiate`, `connect_port`, `deactivate`, `cleanup` and the descriptor. These only allocate, store pointers and free. `Activate` starts from a state that already has its sample rate and a 4096-cell buffer.
- Floating-point rounding is not modelled. All arithmetic is exact over the reals, and the `float`/`double` conversions are dropped.
- NaN and infinite control values are not modelled.
- The values of `sin`, `cos`, `tan`, `exp`, `tanh` and `pow` are not modelled. They are a parameter, and only |sin| <= 1 is assumed. Frequency-response properties beyond DC gain are therefore out of reach.
- `rand()` is not modelled. The caller supplies the draws, one per sample, and the LFO properties assume each lies in [0, 1].
- Filters.LadderStep: no bound on the ladder's output or its stages, because the model does not know tanh's values.
- MultiFilter.Run: requires a vowel selector in 0..4 when the vowel filter is selected. `run()` then indexes `VOWEL_DATA` out of bounds, which is undefined behaviour with no defined result to model.
- MultiFilter.Filter: requires the same vowel range as `Run`, for the same reason.
- Numeric.RoundKnob: does not model the overflow of `(int)(v + 0.5f)` when |v + 0.5| reaches 2^31. C leaves that conversion undefined, so there is no result to model, and the model keeps an unbounded integer.
- Lfo.HoldPeriod: does not model the overflow of the int conversion when knob^2 * sampleRate / 2 exceeds 2^31. The value is kept as an unbounded integer.
- MultiFilter.LfoStaysSane: holds only when the LFO rate lies in [0, sampleRate) and the slew knob gives a smoothing factor in [0, 1]. Outside that, a negative rate takes the phase below 0 without any wrap, a rate of at least the sample rate can leave it at or above 2*pi after a wrap, and a factor above 1 makes the slew overshoot.
- MultiFilter.Run: only cutoff, LFO rate and LFO slew may be unbound. `run()` dereferences the other ports without checking them.
- Comb buffer allocation failure is not modelled: `activate()` skips the clear when the buffer is missing, and the model always has a buffer.

=== FILE: bits.dfy ===
/**
 The integer bit arithmetic behind the comb buffer's index masking: a C `int`
 stored in 32-bit two's complement, and bitwise AND on the stored bits.
 */
module Bits {
  import opened Numeric

  const Int32Min: int := -0x8000_0000
  const Int32Limit: int := 0x8000_0000
  const Word: int := 0x1_0000_0000

  predicate IsInt32(x: int)
  {
    Int32Min <= x < Int32Limit
  }

  function Pow2(k: nat): (p: nat)
    ensures p >= 1
  {
    if k == 0 then 1 else 2 * Pow2(k - 1)
  }

  /** The 32-bit pattern that stores `x`: its value modulo 2^32. */
  function TwosComplement(x: int): (u: nat)
    requires IsInt32(x)
    ensures u < Word
    ensures x >= 0 ==> u == x
    ensures x < 0 ==> u == x + Word
  {
    x % Word
  }

  /** Bitwise AND of two non-negative bit patterns, one bit at a time from the least significant. */
  function BitAnd(a: nat, b: nat): nat
  {
    if a == 0 || b == 0 then 0
    else 2 * BitAnd(a / 2, b / 2) + (if a % 2 == 1 && b % 2 == 1 then 1 else 0)
  }

  /** Splitting off the lowest bit: `u` modulo `2m` is twice `u / 2` modulo `m`, plus that bit. */
  lemma HalveMod(u: nat, m: nat)
    requires m > 0
    ensures u % (2 * m) == 2 * ((u / 2) % m) + u % 2
  {
    var c := (u / 2) % m;
    var q := (u / 2) / m;
    assert u / 2 == q * m + c;
    assert u == 2 * (u / 2) + u % 2;
    assert u == q * (2 * m) + (2 * c + u % 2);
    ModUnique(u, 2 * m, q, 2 * c + u % 2);
  }

  /** ANDing with a mask of the k low bits keeps the value modulo 2^k. */
  lemma {:induction false} AndLowMask(u: nat, k: nat)
    ensures BitAnd(u, Pow2(k) - 1) == u % Pow2(k)
  {
    if k == 0 {
      assert BitAnd(u, 0) == 0;
      ModUnique(u, 1, u, 0);
    } else {
      var m := Pow2(k - 1);
      assert Pow2(k) == 2 * m;
      if u == 0 {
        ModUnique(0, 2 * m, 0, 0);
      } else {
        AndLowMask(u / 2, k - 1);
        assert (2 * m - 1) / 2 == m - 1 && (2 * m - 1) % 2 == 1;
        assert BitAnd(u, 2 * m - 1) == 2 * ((u / 2) % m) + u % 2;
        HalveMod(u, m);
      }
    }
  }

  lemma Pow2Of12()
    ensures Pow2(12) == 4096
  {
    assert Pow2(4) == 16;
    assert Pow2(8) == 256;
  }

  /** Reducing modulo 2^32 first does not change the value modulo 4096, because 4096 divides 2^32. */
  lemma WordThenLowBits(x: int)
    ensures (x % Word) % 4096 == x % 4096
  {
    var q := x / Word;
    var r := x % Word;
    var q2 := r / 4096;
    var r2 := r % 4096;
    assert x == (q * 0x10_0000 + q2) * 4096 + r2;
    ModUnique(x, 4096, q * 0x10_0000 + q2, r2);
  }

  /** The buffer index the plugin computes as `x & 4095`: the cell of a
      4096-cell buffer that `x` lands on, negative `x` included. */
  function Mask4095(x: int): (i: int)
    requires IsInt32(x)
    ensures 0 <= i < 4096
    ensures (x - i) % 4096 == 0
  {
    x % 4096
  }

  /** `x & 4095` on the 32-bit two's-complement pattern of any `int`, negative
      ones included, is the index Mask4095 computes. */
  lemma MaskIsBitAnd(x: int)
    requires IsInt32(x)
    ensures BitAnd(TwosComplement(x), 4095) == x % 4096
    ensures BitAnd(TwosComplement(x), 4095) == Mask4095(x)
  {
    Pow2Of12();
    AndLowMask(TwosComplement(x), 12);
    WordThenLowBits(x);
  }
}

=== FILE: comb.dfy ===
/**
 The comb filter's delay line: a ring buffer of 4096 samples with a write
 cursor. Every index into it is wrapped with `& 4095`. The delay is read at a
 fractional position by linear interpolation between the two neighbouring
 samples.

 The second half of the module relates the ring buffer to the plain sequence
 of every value ever written. That relation shows that a read with delay d
 returns the value written d samples ago, interpolated between neighbours.
 */
module Comb {
  import opened Numeric
  import Bits

  /** COMB_BUFFER_SIZE. */
  const Size: int := 4096
  /** The longest delay, COMB_BUFFER_SIZE - 1 samples. */
  const MaxDelay: real := 4095.0

  datatype Ring = Ring(buffer: seq<real>, writePos: int)

  predicate Valid(r: Ring)
  {
    |r.buffer| == Size && 0 <= r.writePos < Size
  }

  /** The delay line as activation leaves it: all zero, cursor at 0. */
  function Silent(): (r: Ring)
    ensures Valid(r) && r.writePos == 0
    ensures forall i :: 0 <= i < Size ==> r.buffer[i] == 0.0
  {
    Ring(seq(Size, _ => 0.0), 0)
  }

  /** The delay in samples for a cutoff: sampleRate / cutoff, first capped at
      4095, then raised to at least 1. */
  function Delay(sampleRate: real, cutoff: real): (d: real)
    requires cutoff > 0.0
    ensures 1.0 <= d <= MaxDelay
    ensures 1.0 <= sampleRate / cutoff <= MaxDelay ==> d == sampleRate / cutoff
    ensures sampleRate / cutoff > MaxDelay ==> d == MaxDelay
    ensures sampleRate / cutoff < 1.0 ==> d == 1.0
  {
    var raw := sampleRate / cutoff;
    var capped := if raw >= MaxDelay then MaxDelay else raw;
    if capped < 1.0 then 1.0 else capped
  }

  /** Where a delayed read looks: the older and the newer of the two buffer
      cells around the read position, and how far past the older one it lies. */
  datatype Tap = Tap(older: int, newer: int, frac: real)

  /** The read position for delay `d` behind the write cursor. The position may
      be negative; both cell indices are wrapped by `& 4095`. */
  function ReadTap(writePos: int, d: real): (t: Tap)
    requires 0 <= writePos < Size && 1.0 <= d <= MaxDelay
    ensures 0 <= t.older < Size && 0 <= t.newer < Size
    ensures t.older == (writePos - Ceil(d)) % Size
    ensures t.newer == (t.older + 1) % Size
    ensures 0.0 <= t.frac < 1.0
    ensures t.frac == Ceil(d) as real - d
  {
    var pos := writePos as real - d;
    var whole := pos.Floor;
    assert whole == writePos - Ceil(d);
    Tap(Bits.Mask4095(whole), Bits.Mask4095(whole + 1), pos - whole as real)
  }

  /** Linear interpolation from `older` (at frac 0) toward `newer` (at frac 1). */
  function Interpolate(older: real, newer: real, frac: real): (r: real)
    ensures r == (1.0 - frac) * older + frac * newer
    ensures frac == 0.0 ==> r == older
    ensures 0.0 <= frac <= 1.0 ==> Between(r, older, newer)
  {
    PartWayBetween(older, newer, frac);
    older + (newer - older) * frac
  }

  /** The delayed sample, read at delay `d`. */
  function Read(r: Ring, d: real): (v: real)
    requires Valid(r) && 1.0 <= d <= MaxDelay
    ensures var t := ReadTap(r.writePos, d);
            Between(v, r.buffer[t.older], r.buffer[t.newer])
    ensures d == 1.0 ==> v == r.buffer[(r.writePos - 1) % Size]
  {
    var t := ReadTap(r.writePos, d);
    Interpolate(r.buffer[t.older], r.buffer[t.newer], t.frac)
  }

  /** Store `v` at the write cursor and move the cursor on by one, wrapping. */
  function Write(r: Ring, v: real): (w: Ring)
    requires Valid(r)
    ensures Valid(w)
    ensures w.writePos == (r.writePos + 1) % Size
    ensures w.buffer[r.writePos] == v
    ensures forall i :: 0 <= i < Size && i != r.writePos ==> w.buffer[i] == r.buffer[i]
  {
    Ring(r.buffer[r.writePos := v], Bits.Mask4095(r.writePos + 1))
  }

  datatype CombOut = CombOut(ring: Ring, wet: real)

  /** One sample of the feedback comb: the output is the input plus `feedback`
      times the delayed sample, and that output is what is written back. */
  function Step(r: Ring, d: real, feedback: real, x: real): (o: CombOut)
    requires Valid(r) && 1.0 <= d <= MaxDelay
    ensures Valid(o.ring)
    ensures o.wet - x == feedback * Read(r, d)
    ensures feedback == 0.0 ==> o.wet == x
    ensures o.ring.writePos == (r.writePos + 1) % Size
    ensures o.ring.buffer[r.writePos] == o.wet
    ensures forall i :: 0 <= i < Size && i != r.writePos ==> o.ring.buffer[i] == r.buffer[i]
  {
    var wet := x + feedback * Read(r, d);
    CombOut(Write(r, wet), wet)
  }

  // ---------------------------------------------------------------------------
  // The ring buffer as a window on the history of written values

  /** The value written `k` samples ago, 1 being the most recent. */
  function Ago(h: seq<real>, k: int): real
    requires 1 <= k <= |h|
  {
    h[|h| - k]
  }

  /** The buffer cell `k` places behind the write cursor. */
  function Slot(r: Ring, k: int): real
    requires Valid(r)
  {
    r.buffer[(r.writePos - k) % Size]
  }

  /** The ring holds the last 4096 values of history `h`, the newest just behind the cursor. */
  ghost predicate Remembers(r: Ring, h: seq<real>)
  {
    && Valid(r)
    && |h| >= Size
    && forall k :: 1 <= k <= Size ==> Slot(r, k) == Ago(h, k)
  }

  /** After activation the buffer holds a history of 4096 silent samples. */
  lemma SilentRemembersSilence()
    ensures Remembers(Silent(), seq(Size, _ => 0.0))
  {
    var h: seq<real> := seq(Size, _ => 0.0);
    forall k | 1 <= k <= Size
      ensures Slot(Silent(), k) == Ago(h, k)
    {
    }
  }

  /** Writing a value extends the remembered history by that value. */
  lemma {:induction false} WriteRemembers(r: Ring, h: seq<real>, v: real)
    requires Remembers(r, h)
    ensures Remembers(Write(r, v), h + [v])
  {
    var w := Write(r, v);
    var h' := h + [v];
    forall k | 1 <= k <= Size
      ensures Slot(w, k) == Ago(h', k)
    {
      assert (w.writePos - k) % Size == (r.writePos - (k - 1)) % Size by {
        ShiftMod(r.writePos, k);
      }
      if k == 1 {
        assert (r.writePos - 0) % Size == r.writePos;
      } else {
        assert Slot(r, k - 1) == Ago(h, k - 1);
        assert (r.writePos - (k - 1)) % Size != r.writePos by {
          ShiftModMoves(r.writePos, k - 1);
        }
      }
    }
  }

  lemma ShiftMod(p: int, k: int)
    requires 0 <= p < Size
    ensures ((p + 1) % Size - k) % Size == (p - (k - 1)) % Size
  {
    if p + 1 == Size {
      var x := -k;
      ModUnique(x + Size, Size, x / Size + 1, x % Size);
    }
  }

  lemma ShiftModMoves(p: int, j: int)
    requires 0 <= p < Size && 1 <= j < Size
    ensures (p - j) % Size != p
  {
  }

  /** The sample a delayed read should return, stated on the history alone: the
      value written Ceil(d) samples ago, interpolated toward the one after it. */
  ghost function Delayed(h: seq<real>, d: real): real
    requires |h| >= Size && 1.0 <= d <= MaxDelay
  {
    var k := Ceil(d);
    if k == 1 then Ago(h, 1)
    else Interpolate(Ago(h, k), Ago(h, k - 1), k as real - d)
  }

  /** A read from the ring returns the delayed sample of the history it remembers. */
  lemma ReadRemembered(r: Ring, h: seq<real>, d: real)
    requires Remembers(r, h) && 1.0 <= d <= MaxDelay
    ensures Read(r, d) == Delayed(h, d)
  {
    var k := Ceil(d);
    var t := ReadTap(r.writePos, d);
    assert 1 <= k < Size;
    assert r.buffer[t.older] == Slot(r, k) == Ago(h, k);
    if k == 1 {
      assert t.frac == 0.0;
    } else {
      ModNext(r.writePos - k);
      assert t.newer == (r.writePos - (k - 1)) % Size;
      assert r.buffer[t.newer] == Slot(r, k - 1) == Ago(h, k - 1);
    }
  }

  /** Wrapping and then stepping on by one is the same as stepping on and then wrapping. */
  lemma ModNext(a: int)
    ensures ((a % Size) + 1) % Size == (a + 1) % Size
  {
    if a % Size + 1 < Size {
      ModUnique(a + 1, Size, a / Size, a % Size + 1);
    } else {
      ModUnique(a + 1, Size, a / Size + 1, 0);
    }
  }

  /** The comb filter recurrence: each output is the input plus `feedback` times
      the output Ceil(d) samples earlier (interpolated for a fractional delay),
      and the output joins the history. With a whole-number delay n the feedback
      term is exactly the output n samples earlier. */
  lemma {:induction false} CombRecurrence(r: Ring, h: seq<real>, d: real, feedback: real, x: real)
    requires Remembers(r, h) && 1.0 <= d <= MaxDelay
    ensures Step(r, d, feedback, x).wet == x + feedback * Delayed(h, d)
    ensures Remembers(Step(r, d, feedback, x).ring, h + [Step(r, d, feedback, x).wet])
  {
    ReadRemembered(r, h, d);
    WriteRemembers(r, h, Step(r, d, feedback, x).wet);
  }

  /** With a whole-number delay n the delayed sample is exactly the value written n samples ago. */
  lemma WholeDelay(h: seq<real>, n: int)
    requires |h| >= Size && 1 <= n < Size
    ensures Delayed(h, n as real) == Ago(h, n)
  {
    assert Ceil(n as real) == n;
  }
}

=== FILE: conditioner.dfy ===
/**
 The parameter conditioner. It adds the LFO value, scaled by two depth knobs,
 to the base cutoff and resonance, then clamps both into the ranges the filters
 are safe in.
 */
module Conditioner {

  const MinCutoff: real := 20.0
  const MinResonance: real := 0.707
  const MaxResonance: real := 20.0
  /** The width of the resonance range, the divisor of every normalised resonance. */
  const ResonanceSpan: real := 19.293

  /** The highest cutoff allowed, just below the Nyquist frequency. */
  function CutoffCeiling(sampleRate: real): real
  {
    sampleRate * 0.49
  }

  /** Clamp a cutoff: first up to 20 Hz, then down to 0.49 * sampleRate. Because
      the ceiling comes second, it wins when it is below 20 Hz. */
  function ClampCutoff(c: real, sampleRate: real): (r: real)
    requires sampleRate > 0.0
    ensures 0.0 < r <= CutoffCeiling(sampleRate)
    ensures MinCutoff <= CutoffCeiling(sampleRate) ==> MinCutoff <= r
    ensures CutoffCeiling(sampleRate) < MinCutoff ==> r == CutoffCeiling(sampleRate)
    ensures MinCutoff <= c <= CutoffCeiling(sampleRate) ==> r == c
    ensures c < MinCutoff && MinCutoff <= CutoffCeiling(sampleRate) ==> r == MinCutoff
    ensures c > CutoffCeiling(sampleRate) ==> r == CutoffCeiling(sampleRate)
  {
    var lifted := if c < MinCutoff then MinCutoff else c;
    if lifted > CutoffCeiling(sampleRate) then CutoffCeiling(sampleRate) else lifted
  }

  /** Clamp a resonance into [0.707, 20]. */
  function ClampResonance(q: real): (r: real)
    ensures MinResonance <= r <= MaxResonance
    ensures MinResonance <= q <= MaxResonance ==> r == q
    ensures q < MinResonance ==> r == MinResonance
    ensures q > MaxResonance ==> r == MaxResonance
  {
    var lifted := if q < MinResonance then MinResonance else q;
    if lifted > MaxResonance then MaxResonance else lifted
  }

  /** Clamping is monotone and a second clamp changes nothing. */
  lemma ClampsMonotoneAndIdempotent(c1: real, c2: real, sampleRate: real)
    requires sampleRate > 0.0 && c1 <= c2
    ensures ClampCutoff(c1, sampleRate) <= ClampCutoff(c2, sampleRate)
    ensures ClampResonance(c1) <= ClampResonance(c2)
    ensures MinCutoff <= CutoffCeiling(sampleRate) ==>
              ClampCutoff(ClampCutoff(c1, sampleRate), sampleRate) == ClampCutoff(c1, sampleRate)
    ensures ClampResonance(ClampResonance(c1)) == ClampResonance(c1)
  {
  }

  /** The conditioned filter parameters of one sample. */
  datatype Params = Params(cutoff: real, resonance: real)

  /** What the filters may rely on: a positive cutoff at most 0.49 * sampleRate
      and a resonance in [0.707, 20]. */
  predicate Conditioned(p: Params, sampleRate: real)
  {
    && 0.0 < p.cutoff <= CutoffCeiling(sampleRate)
    && MinResonance <= p.resonance <= MaxResonance
  }

  /** Modulate the base cutoff and resonance by `lfo` times each depth, then clamp. */
  function Condition(baseCutoff: real, baseResonance: real, lfo: real,
                     cutoffDepth: real, resonanceDepth: real, sampleRate: real): (p: Params)
    requires sampleRate > 0.0
    ensures Conditioned(p, sampleRate)
    ensures MinCutoff <= CutoffCeiling(sampleRate) ==> MinCutoff <= p.cutoff
    ensures CutoffCeiling(sampleRate) < MinCutoff ==> p.cutoff == CutoffCeiling(sampleRate)
    ensures MinCutoff <= baseCutoff + lfo * cutoffDepth <= CutoffCeiling(sampleRate)
            ==> p.cutoff == baseCutoff + lfo * cutoffDepth
    ensures MinResonance <= baseResonance + lfo * resonanceDepth <= MaxResonance
            ==> p.resonance == baseResonance + lfo * resonanceDepth
    ensures p.cutoff == ClampCutoff(baseCutoff + lfo * cutoffDepth, sampleRate)
    ensures p.resonance == ClampResonance(baseResonance + lfo * resonanceDepth)
  {
    Params(ClampCutoff(baseCutoff + lfo * cutoffDepth, sampleRate),
           ClampResonance(baseResonance + lfo * resonanceDepth))
  }
}

=== FILE: filters.dfy ===
/**
 The filter bank: the scalars derived from the conditioned resonance, the six
 filter algorithms (each one sample at a time over its own state), and the mode
 selector that picks one of them.

 The math library calls that shape each filter's frequency response come in as
 the `Libm` parameter. The model states what holds whatever their values are:
 denominators stay positive, the lowpass filters pass DC unchanged, the bandpass
 formants block it, and a filter at rest with silent input stays at rest.
 */
module Filters {
  import opened Numeric
  import opened Conditioner
  import Lfo

  // ---------------------------------------------------------------------------
  // Scalars derived from the resonance

  /** Resonance rescaled from [0.707, 20] to [0, 1]: (res - 0.707) / 19.293. */
  function NormalizedResonance(res: real): (n: real)
    ensures res == MinResonance + n * ResonanceSpan
    ensures MinResonance <= res <= MaxResonance ==> 0.0 <= n <= 1.0
    ensures n == 0.0 <==> res == MinResonance
    ensures n == 1.0 <==> res == MaxResonance
  {
    (res - MinResonance) / ResonanceSpan
  }

  /** The comb filter's feedback gain, 0.99 times the normalised resonance. */
  function CombFeedback(res: real): (fb: real)
    ensures MinResonance <= res <= MaxResonance ==> 0.0 <= fb <= 0.99
    ensures fb == 0.0 <==> res == MinResonance
  {
    NormalizedResonance(res) * 0.99
  }

  /** The ladder's feedback amount, the normalised resonance scaled to [0, 4.2]. */
  function LadderFeedback(res: real): (k: real)
    ensures MinResonance <= res <= MaxResonance ==> 0.0 <= k <= 4.2
    ensures k == 0.0 <==> res == MinResonance
    ensures k == 4.2 <==> res == MaxResonance
  {
    (res - MinResonance) / ResonanceSpan * 4.2
  }

  /** The formant bank's level compensation, 1 + 3 * normalised resonance. */
  function FormantGain(res: real): (g: real)
    ensures MinResonance <= res <= MaxResonance ==> 1.0 <= g <= 4.0
  {
    1.0 + NormalizedResonance(res) * 3.0
  }

  // ---------------------------------------------------------------------------
  // Second-order sections

  /** Biquad coefficients, already divided by a0. */
  datatype Coeffs = Coeffs(b0: real, b1: real, b2: real, a1: real, a2: real)

  /** The two registers of a transposed direct-form II section. */
  datatype Biquad = Biquad(z1: real, z2: real)

  datatype BiquadOut = BiquadOut(state: Biquad, out: real)

  const Rest: Biquad := Biquad(0.0, 0.0)

  /** One sample through a transposed direct-form II section. The lowpass
      filter and each formant use it. */
  function Df2t(c: Coeffs, z: Biquad, x: real): (o: BiquadOut)
    ensures z == Rest && x == 0.0 ==> o == BiquadOut(Rest, 0.0)
  {
    var y := c.b0 * x + z.z1;
    BiquadOut(Biquad((c.b1 * x - c.a1 * y) + z.z2, c.b2 * x - c.a2 * y), y)
  }

  /** The state a section settles in under the constant input `x`, when its
      gain at DC is `g`. */
  function SteadyState(c: Coeffs, g: real, x: real): Biquad
  {
    Biquad((c.b1 - c.a1 * g) * x + (c.b2 - c.a2 * g) * x, (c.b2 - c.a2 * g) * x)
  }

  /** A section whose coefficients give DC gain `g` holds its steady state under
      a constant input and outputs `g` times that input. */
  lemma Df2tSteadyState(c: Coeffs, g: real, x: real)
    requires c.b0 + c.b1 + c.b2 == g * (1.0 + c.a1 + c.a2)
    ensures Df2t(c, SteadyState(c, g, x), x) == BiquadOut(SteadyState(c, g, x), g * x)
  {
    var s := SteadyState(c, g, x);
    calc {
      c.b0 * x + s.z1;
      (c.b0 + c.b1 + c.b2) * x - (c.a1 + c.a2) * g * x;
      g * (1.0 + c.a1 + c.a2) * x - (c.a1 + c.a2) * g * x;
      g * x;
    }
  }

  /** 1 + s / (2q), the a0 of both biquad designs, is positive when |s| <= 1 and
      q is at least the resonance floor 0.707. */
  lemma DenominatorPositive(s: real, q: real)
    requires -1.0 <= s <= 1.0 && q >= MinResonance
    ensures 1.0 + s / (2.0 * q) > 0.0
    ensures 1.0 - s / (2.0 * q) > 0.0
  {
    assert -1.0 < s / (2.0 * q) < 1.0 by {
      assert 2.0 * q > 1.0;
      assert -(2.0 * q) < s < 2.0 * q;
    }
  }

  /** The RBJ lowpass coefficients for the conditioned cutoff and resonance. */
  function Lowpass(m: Libm, cutoff: real, res: real, sampleRate: real): (c: Coeffs)
    requires sampleRate > 0.0 && res >= MinResonance && SinBounded(m)
    ensures c.b0 + c.b1 + c.b2 == 1.0 + c.a1 + c.a2
    ensures c.b2 == c.b0 && c.b1 == 2.0 * c.b0
  {
    var w0 := TwoPi * cutoff / sampleRate;
    var cosw := m.cos(w0);
    var alpha := m.sin(w0) / (2.0 * res);
    DenominatorPositive(m.sin(w0), res);
    var inv := 1.0 / (1.0 + alpha);
    var b0 := (1.0 - cosw) * 0.5;
    Coeffs(b0 * inv, (1.0 - cosw) * inv, b0 * inv, -2.0 * cosw * inv, (1.0 - alpha) * inv)
  }

  /** The lowpass biquad passes DC at unity gain: in its steady state for a
      constant input it outputs that input unchanged. */
  lemma LowpassUnityDc(m: Libm, cutoff: real, res: real, sampleRate: real, x: real)
    requires sampleRate > 0.0 && res >= MinResonance && SinBounded(m)
    ensures var c := Lowpass(m, cutoff, res, sampleRate);
            Df2t(c, SteadyState(c, 1.0, x), x) == BiquadOut(SteadyState(c, 1.0, x), x)
  {
    var c := Lowpass(m, cutoff, res, sampleRate);
    Df2tSteadyState(c, 1.0, x);
  }

  /** The RBJ constant-peak bandpass coefficients of one formant. */
  function Bandpass(m: Libm, freq: real, q: real, sampleRate: real): (c: Coeffs)
    requires sampleRate > 0.0 && q >= MinResonance && SinBounded(m)
    ensures c.b0 + c.b1 + c.b2 == 0.0
    ensures c.b1 == 0.0 && c.b2 == -c.b0
  {
    var w0 := TwoPi * freq / sampleRate;
    var alpha := m.sin(w0) / (2.0 * q);
    DenominatorPositive(m.sin(w0), q);
    var inv := 1.0 / (1.0 + alpha);
    Coeffs(alpha * inv, 0.0 * inv, -alpha * inv, -2.0 * m.cos(w0) * inv, (1.0 - alpha) * inv)
  }

  // ---------------------------------------------------------------------------
  // Mode 0: biquad lowpass

  function BiquadStep(m: Libm, cutoff: real, res: real, sampleRate: real, z: Biquad, x: real): (o: BiquadOut)
    requires sampleRate > 0.0 && res >= MinResonance && SinBounded(m)
    ensures z == Rest && x == 0.0 ==> o == BiquadOut(Rest, 0.0)
  {
    Df2t(Lowpass(m, cutoff, res, sampleRate), z, x)
  }

  // ---------------------------------------------------------------------------
  // Mode 1: state-variable lowpass

  /** The integrator outputs of the state-variable filter. */
  datatype Svf = Svf(lp: real, bp: real)

  datatype SvfOut = SvfOut(state: Svf, out: real)

  /** The state-variable filter's denominator 1 + 2Rg + g^2, with R = 1/(2 res),
      is positive for every g when res >= 0.707. */
  lemma SvfDenominatorPositive(g: real, res: real)
    requires res >= MinResonance
    ensures 1.0 + 2.0 * (1.0 / (2.0 * res)) * g + g * g > 0.0
  {
    var r := 1.0 / (2.0 * res);
    assert 0.0 < r < 1.0;
    var e := g + r;
    assert 1.0 + 2.0 * r * g + g * g == e * e + (1.0 - r * r);
    assert r * r < 1.0;
  }

  /** One sample of the state-variable filter; the lowpass tap is the output. With
      the bandpass register at zero and the input equal to the lowpass register,
      the filter is at equilibrium: nothing moves and the input comes out
      unchanged. Silence at rest and unity gain at DC are both cases of this. */
  function SvfStep(m: Libm, cutoff: real, res: real, sampleRate: real, s: Svf, x: real): (o: SvfOut)
    requires sampleRate > 0.0 && res >= MinResonance
    ensures o.out == o.state.lp
    ensures s.bp == 0.0 && x == s.lp ==> o == SvfOut(s, x)
  {
    var g := m.tan(Pi * cutoff / sampleRate);
    var r := 1.0 / (2.0 * res);
    SvfDenominatorPositive(g, res);
    var den := 1.0 + 2.0 * r * g + g * g;
    var num := x - s.lp - 2.0 * r * s.bp;
    var hp := num / den;
    assert num == 0.0 ==> hp == 0.0;
    var bp := g * hp + s.bp;
    var lp := g * bp + s.lp;
    SvfOut(Svf(lp, bp), lp)
  }

  /** The state-variable lowpass passes DC at unity gain and is silent at rest. */
  lemma SvfUnityDc(m: Libm, cutoff: real, res: real, sampleRate: real, x: real)
    requires sampleRate > 0.0 && res >= MinResonance
    ensures SvfStep(m, cutoff, res, sampleRate, Svf(x, 0.0), x) == SvfOut(Svf(x, 0.0), x)
    ensures SvfStep(m, cutoff, res, sampleRate, Svf(0.0, 0.0), 0.0) == SvfOut(Svf(0.0, 0.0), 0.0)
  {
  }

  // ---------------------------------------------------------------------------
  // Mode 2: nonlinear four-stage ladder

  datatype Ladder = Ladder(v1: real, v2: real, v3: real, v4: real)

  datatype LadderOut = LadderOut(state: Ladder, out: real)

  /** Four one-pole stages, each driven through tanh. The first stage takes the
      input minus k times the previous fourth stage. Each later stage reads the
      stage before it as already updated in this sample. */
  function LadderStep(m: Libm, cutoff: real, res: real, sampleRate: real, s: Ladder, x: real): (o: LadderOut)
    requires sampleRate > 0.0
    ensures o.out == o.state.v4
    ensures var g := 1.0 - m.exp(-2.0 * Pi * cutoff / sampleRate);
            && o.state.v1 == LadderStage(m, g, s.v1, x - LadderFeedback(res) * s.v4)
            && o.state.v2 == LadderStage(m, g, s.v2, o.state.v1)
            && o.state.v3 == LadderStage(m, g, s.v3, o.state.v2)
            && o.state.v4 == LadderStage(m, g, s.v4, o.state.v3)
    ensures s == Ladder(0.0, 0.0, 0.0, 0.0) && x == 0.0 ==> o == LadderOut(s, 0.0)
  {
    var g := 1.0 - m.exp(-2.0 * Pi * cutoff / sampleRate);
    var u := x - LadderFeedback(res) * s.v4;
    assert s.v4 == 0.0 && x == 0.0 ==> u == 0.0;
    var v1 := LadderStage(m, g, s.v1, u);
    var v2 := LadderStage(m, g, s.v2, v1);
    var v3 := LadderStage(m, g, s.v3, v2);
    var v4 := LadderStage(m, g, s.v4, v3);
    LadderOut(Ladder(v1, v2, v3, v4), v4)
  }

  /** One ladder stage: `v` moves by g times the difference of tanh of the
      stage's input and tanh of `v` itself. A stage whose input equals its
      value does not move. */
  function LadderStage(m: Libm, g: real, v: real, input: real): (r: real)
    ensures input == v ==> r == v
  {
    v + g * (m.tanh(input) - m.tanh(v))
  }

  // ---------------------------------------------------------------------------
  // Mode 3: vowel formant bank

  const FormantCount: int := 3
  const VowelCount: int := 5

  /** Per vowel, three formants as (centre frequency in Hz, Q). */
  const VowelTable: seq<seq<(real, real)>> := [
    [(730.0, 8.0), (1090.0, 9.0), (2440.0, 10.0)],
    [(270.0, 8.0), (2290.0, 12.0), (3010.0, 12.0)],
    [(390.0, 9.0), (1990.0, 10.0), (2550.0, 10.0)],
    [(570.0, 8.0), (840.0, 9.0), (2410.0, 10.0)],
    [(300.0, 8.0), (870.0, 9.0), (2240.0, 10.0)]
  ]

  /** Every table entry has a positive frequency and a Q of at least 8. */
  lemma VowelTableShape(vowel: int, j: int)
    requires 0 <= vowel < VowelCount && 0 <= j < FormantCount
    ensures |VowelTable| == VowelCount && |VowelTable[vowel]| == FormantCount
    ensures VowelTable[vowel][j].0 > 0.0 && VowelTable[vowel][j].1 >= 8.0
  {
  }

  /** The registers of the three formant sections. */
  datatype Formants = Formants(z1: seq<real>, z2: seq<real>)

  predicate FormantsValid(f: Formants)
  {
    |f.z1| == FormantCount && |f.z2| == FormantCount
  }

  datatype FormantsOut = FormantsOut(state: Formants, out: real)

  /** Formant j's centre frequency, shifted by the ratio `shift` and capped at
      0.49 * sampleRate. */
  function FormantFrequency(vowel: int, j: int, shift: real, sampleRate: real): (f: real)
    requires 0 <= vowel < VowelCount && 0 <= j < FormantCount
    ensures f <= CutoffCeiling(sampleRate)
    ensures VowelTable[vowel][j].0 * shift <= CutoffCeiling(sampleRate) ==> f == VowelTable[vowel][j].0 * shift
    ensures VowelTable[vowel][j].0 * shift > CutoffCeiling(sampleRate) ==> f == CutoffCeiling(sampleRate)
  {
    var f := VowelTable[vowel][j].0 * shift;
    if f > CutoffCeiling(sampleRate) then CutoffCeiling(sampleRate) else f
  }

  /** One sample through formant j of `vowel`. The formant's Q is the table Q
      times half the resonance. */
  function FormantStep(m: Libm, vowel: int, j: int, shift: real, res: real, sampleRate: real,
                       z: Biquad, x: real): (o: BiquadOut)
    requires 0 <= vowel < VowelCount && 0 <= j < FormantCount
    requires sampleRate > 0.0 && res >= MinResonance && SinBounded(m)
    ensures z == Rest && x == 0.0 ==> o == BiquadOut(Rest, 0.0)
  {
    VowelTableShape(vowel, j);
    var q := VowelTable[vowel][j].1 * res * 0.5;
    Df2t(Bandpass(m, FormantFrequency(vowel, j, shift, sampleRate), q, sampleRate), z, x)
  }

  /** The bank: three formants in parallel on the same input, their outputs summed
      and scaled by the gain compensation. The cutoff does not set a cutoff here:
      it shifts every formant by the ratio 2^((cutoff - 1000) / 1000). */
  function VowelStep(m: Libm, vowel: int, cutoff: real, res: real, sampleRate: real,
                     f: Formants, x: real): (o: FormantsOut)
    requires 0 <= vowel < VowelCount && FormantsValid(f)
    requires sampleRate > 0.0 && res >= MinResonance && SinBounded(m)
    ensures FormantsValid(o.state)
    ensures var shift := m.pow(2.0, (cutoff - 1000.0) / 1000.0);
            && Biquad(o.state.z1[0], o.state.z2[0]) == FormantStep(m, vowel, 0, shift, res, sampleRate, Biquad(f.z1[0], f.z2[0]), x).state
            && Biquad(o.state.z1[1], o.state.z2[1]) == FormantStep(m, vowel, 1, shift, res, sampleRate, Biquad(f.z1[1], f.z2[1]), x).state
            && Biquad(o.state.z1[2], o.state.z2[2]) == FormantStep(m, vowel, 2, shift, res, sampleRate, Biquad(f.z1[2], f.z2[2]), x).state
    ensures var shift := m.pow(2.0, (cutoff - 1000.0) / 1000.0);
            o.out == (FormantStep(m, vowel, 0, shift, res, sampleRate, Biquad(f.z1[0], f.z2[0]), x).out
                      + FormantStep(m, vowel, 1, shift, res, sampleRate, Biquad(f.z1[1], f.z2[1]), x).out
                      + FormantStep(m, vowel, 2, shift, res, sampleRate, Biquad(f.z1[2], f.z2[2]), x).out)
                     * FormantGain(res)
    ensures (forall j :: 0 <= j < FormantCount ==> f.z1[j] == 0.0 && f.z2[j] == 0.0) && x == 0.0
            ==> o.out == 0.0 && o.state == f
  {
    var shift := m.pow(2.0, (cutoff - 1000.0) / 1000.0);
    var s0 := FormantStep(m, vowel, 0, shift, res, sampleRate, Biquad(f.z1[0], f.z2[0]), x);
    var s1 := FormantStep(m, vowel, 1, shift, res, sampleRate, Biquad(f.z1[1], f.z2[1]), x);
    var s2 := FormantStep(m, vowel, 2, shift, res, sampleRate, Biquad(f.z1[2], f.z2[2]), x);
    FormantsOut(Formants([s0.state.z1, s1.state.z1, s2.state.z1], [s0.state.z2, s1.state.z2, s2.state.z2]),
                (s0.out + s1.out + s2.out) * FormantGain(res))
  }

  /** Each formant is a bandpass: in its steady state for a constant input it
      outputs nothing. */
  lemma FormantBlocksDc(m: Libm, freq: real, q: real, sampleRate: real, x: real)
    requires sampleRate > 0.0 && q >= MinResonance && SinBounded(m)
    ensures var c := Bandpass(m, freq, q, sampleRate);
            Df2t(c, SteadyState(c, 0.0, x), x) == BiquadOut(SteadyState(c, 0.0, x), 0.0)
  {
    var c := Bandpass(m, freq, q, sampleRate);
    Df2tSteadyState(c, 0.0, x);
  }

  // ---------------------------------------------------------------------------
  // Mode 5: ring / amplitude modulator

  /** The modulator: a crossfade by the normalised resonance `n` from the
      unipolar sine (amplitude modulation) to the bipolar sine (ring modulation). */
  function RingModulator(m: Libm, phase: real, n: real): (r: real)
    ensures r == ((1.0 + n) * m.sin(phase) + (1.0 - n)) * 0.5
    ensures n == 0.0 ==> r == (m.sin(phase) + 1.0) * 0.5
    ensures n == 1.0 ==> r == m.sin(phase)
  {
    var rm := m.sin(phase);
    var am := (rm + 1.0) * 0.5;
    (1.0 - n) * am + n * rm
  }

  /** With the normalised resonance in [0, 1] the modulator lies between the
      AM and the RM signal. */
  lemma RingModulatorBetween(m: Libm, phase: real, n: real)
    requires 0.0 <= n <= 1.0
    ensures Between(RingModulator(m, phase, n), (m.sin(phase) + 1.0) * 0.5, m.sin(phase))
  {
    var rm := m.sin(phase);
    var am := (rm + 1.0) * 0.5;
    var d := rm - am;
    assert RingModulator(m, phase, n) == am + n * d;
    if d >= 0.0 {
      assert n * d <= 1.0 * d;
    } else {
      assert n * d >= 1.0 * d;
    }
  }

  datatype RingOut = RingOut(phase: real, out: real)

  /** One sample of the ring modulator: the input times the modulator at the
      current phase, then the phase advances by 2*pi*cutoff/sampleRate. */
  function RingStep(m: Libm, cutoff: real, res: real, sampleRate: real, phase: real, x: real): (o: RingOut)
    requires sampleRate > 0.0 && 0.0 < cutoff <= CutoffCeiling(sampleRate)
    ensures o.out == x * RingModulator(m, phase, NormalizedResonance(res))
    ensures 0.0 <= phase < TwoPi ==> 0.0 <= o.phase < TwoPi
    ensures x == 0.0 ==> o.out == 0.0
  {
    var inc := 2.0 * Pi * cutoff / sampleRate;
    assert 0.0 <= inc < TwoPi by {
      var ratio := cutoff / sampleRate;
      assert ratio * sampleRate == cutoff;
      if ratio > 0.49 {
        assert ratio * sampleRate > 0.49 * sampleRate;
      }
      assert inc == TwoPi * ratio;
    }
    RingOut(Lfo.Advance(phase, inc), x * RingModulator(m, phase, NormalizedResonance(res)))
  }

  // ---------------------------------------------------------------------------
  // Mode selection

  datatype Mode = BiquadLowpass | StateVariable | Ladder303 | VowelFormant | CombFilter | RingMod

  /** The filter selected by the rounded filter-type control. 0 to 4 each select
      their own filter; every other value, 5 and out-of-range ones alike,
      selects the ring modulator. */
  function ModeOf(filterType: int): (md: Mode)
    ensures md == RingMod <==> !(0 <= filterType <= 4)
  {
    if filterType == 0 then BiquadLowpass
    else if filterType == 1 then StateVariable
    else if filterType == 2 then Ladder303
    else if filterType == 3 then VowelFormant
    else if filterType == 4 then CombFilter
    else RingMod
  }

  /** The filter-type value that names each mode on the control. */
  function ModeCode(md: Mode): (ft: int)
    ensures 0 <= ft <= 5
  {
    match md
    case BiquadLowpass => 0
    case StateVariable => 1
    case Ladder303 => 2
    case VowelFormant => 3
    case CombFilter => 4
    case RingMod => 5
  }

  /** Codes and modes correspond one to one on 0..5, so the dispatch has six
      distinct branches. */
  lemma ModeCodesRoundTrip(md: Mode, ft: int)
    ensures ModeOf(ModeCode(md)) == md
    ensures 0 <= ft <= 5 ==> ModeCode(ModeOf(ft)) == ft
  {
  }
}

=== FILE: lfo.dfy ===
/**
 The modulation engine: an LFO that produces one control value per sample.
 The LFO computes a raw shape value from its phase, advances the phase with a
 wrap at 2*pi, and refreshes a sample-and-hold value on each wrap. It can hold
 the raw value for a number of samples (the step quantizer) and then smooths
 the result with a one-pole slew.
 */
module Lfo {
  import opened Numeric

  /** Selector values of the shape control. */
  const Sine: int := 0
  const Triangle: int := 1
  const RampUp: int := 2
  const RampDown: int := 3
  const Square: int := 4
  const SampleHold: int := 5

  /** Knob values at or below this are treated as "step quantizer off". */
  const StepsOff: real := 0.001

  /** The raw value of shape `shape` at `phase`, before the phase advances.
      `sh` is the cached sample-and-hold value. A selector outside 0..5 gives 0. */
  function Raw(m: Libm, shape: int, phase: real, sh: real): (r: real)
    ensures 0.0 <= phase < TwoPi && (shape == Sine ==> SinBounded(m))
              && (shape == SampleHold ==> 0.0 <= sh <= 1.0)
            ==> 0.0 <= r <= 1.0
    ensures shape == Square ==> r == 0.0 || r == 1.0
    ensures shape == SampleHold ==> r == sh
    ensures !(Sine <= shape <= SampleHold) ==> r == 0.0
  {
    match shape
    case 0 => (m.sin(phase) + 1.0) * 0.5
    case 1 => if phase < Pi then phase / Pi else 2.0 - phase / Pi
    case 2 => phase / TwoPi
    case 3 => 1.0 - phase / TwoPi
    case 4 => if phase < Pi then 1.0 else 0.0
    case 5 => sh
    case _ => 0.0
  }

  /** The two ramps are mirror images: at every phase they sum to one. */
  lemma RampsComplement(m: Libm, phase: real, sh: real)
    ensures Raw(m, RampUp, phase, sh) + Raw(m, RampDown, phase, sh) == 1.0
  {
  }

  /** The triangle is symmetric about pi and peaks there; the square is high
      exactly on the first half of the cycle. */
  lemma TriangleAndSquareHalves(m: Libm, phase: real, sh: real)
    requires 0.0 < phase < TwoPi
    ensures Raw(m, Triangle, phase, sh) == Raw(m, Triangle, TwoPi - phase, sh)
    ensures Raw(m, Triangle, Pi, sh) == 1.0
    ensures Raw(m, Square, phase, sh) == 1.0 <==> phase < Pi
  {
  }

  /** The phase increment reaches 2*pi in one step. */
  predicate Wraps(phase: real, inc: real)
  {
    phase + inc >= TwoPi
  }

  /** The phase after adding `inc`, reduced by one 2*pi when it reaches 2*pi.
      Used both for the LFO and for the ring modulator's oscillator. */
  function Advance(phase: real, inc: real): (r: real)
    ensures r == phase + inc || r == phase + inc - TwoPi
    ensures r < TwoPi <==> phase + inc < 2.0 * TwoPi
    ensures 0.0 <= phase < TwoPi && 0.0 <= inc < TwoPi ==> 0.0 <= r < TwoPi
    ensures 0.0 <= phase < TwoPi && 0.0 <= inc < TwoPi ==> (r < phase <==> Wraps(phase, inc))
  {
    var p := phase + inc;
    if p >= TwoPi then p - TwoPi else p
  }

  /** The sample-and-hold value after one sample: a fresh draw exactly when the
      phase wraps while the sample-and-hold shape is selected. */
  function NextHeld(shape: int, phase: real, inc: real, sh: real, draw: real): (r: real)
    ensures shape == SampleHold && Wraps(phase, inc) ==> r == draw
    ensures r != sh ==> shape == SampleHold && Wraps(phase, inc)
  {
    if Wraps(phase, inc) && shape == SampleHold then draw else sh
  }

  /** Samples the step quantizer holds each value for: 1 + (int)(knob^2 * sampleRate/2).
      The quadratic mapping makes the knob fine-grained near zero. */
  function HoldPeriod(knob: real, sampleRate: real): (p: int)
    requires sampleRate > 0.0
    ensures p >= 1
    ensures (p - 1) as real <= knob * knob * (sampleRate * 0.5) < p as real
  {
    1 + Trunc(knob * knob * (sampleRate * 0.5))
  }

  /** Step-quantizer state: a sample counter and the value it last latched. */
  datatype Hold = Hold(counter: int, stepped: real)

  /** One sample of the step quantizer: the counter counts up and, on reaching
      `period`, restarts at zero and latches the current raw value. */
  function Quantize(h: Hold, raw: real, period: int): (r: Hold)
    ensures h.counter + 1 >= period ==> r.counter == 0 && r.stepped == raw
    ensures h.counter + 1 < period ==> r.counter == h.counter + 1 && r.stepped == h.stepped
    ensures h.counter >= 0 && period >= 1 ==> 0 <= r.counter < period
  {
    var c := h.counter + 1;
    if c >= period then Hold(0, raw) else Hold(c, h.stepped)
  }

  /** The quantizer after the raw values `raws`, one per sample, in order. */
  function QuantizeAll(h: Hold, raws: seq<real>, period: int): Hold
  {
    if |raws| == 0 then h
    else Quantize(QuantizeAll(h, raws[..|raws| - 1], period), raws[|raws| - 1], period)
  }

  /** How sample number n relates to sample n - 1 modulo the period. */
  lemma CountOneMore(n: int, period: int)
    requires n >= 1 && period >= 1
    ensures (n - 1) % period + 1 == period ==> n % period == 0 && n / period * period == n
    ensures (n - 1) % period + 1 < period ==>
              n % period == (n - 1) % period + 1 && n / period * period == (n - 1) / period * period
    ensures (n - 1) / period * period <= n - 1
    ensures n - 1 < period ==> (n - 1) % period == n - 1 && (n - 1) / period * period == 0
  {
    var q, c := (n - 1) / period, (n - 1) % period;
    ModUnique(n - 1, period, q, c);
    assert q * period <= n - 1;
    if c + 1 == period {
      ModUnique(n, period, q + 1, 0);
    } else {
      ModUnique(n, period, q, c + 1);
    }
    if n - 1 < period {
      ModUnique(n - 1, period, 0, n - 1);
    }
  }

  /** Once n reaches the period, the last multiple of the period up to n is a
      sample number in 1..n. */
  lemma LastMultiple(n: int, period: int)
    requires period >= 1 && n >= period
    ensures period <= n / period * period <= n
  {
    var q, c := n / period, n % period;
    ModUnique(n, period, q, c);
    ModUnique(n - period, period, q - 1, c);
    assert q - 1 == (n - period) / period >= 0;
    MulAtLeast(q, period);
  }

  /** From a fresh counter, the quantizer is a sample-and-hold at rate 1/period:
      after n samples the counter is n mod period, and the value held is the raw
      value of the last sample whose number is a multiple of the period. */
  lemma {:induction false} QuantizeHoldsEveryPeriod(h: Hold, raws: seq<real>, period: int)
    requires period >= 1 && h.counter == 0
    ensures QuantizeAll(h, raws, period).counter == |raws| % period
    ensures |raws| < period ==> QuantizeAll(h, raws, period).stepped == h.stepped
    ensures |raws| >= period ==>
              QuantizeAll(h, raws, period).stepped == raws[|raws| / period * period - 1]
  {
    var n := |raws|;
    if n > 0 {
      var prev := raws[..n - 1];
      var q := QuantizeAll(h, prev, period);
      var r := QuantizeAll(h, raws, period);
      assert r == Quantize(q, raws[n - 1], period);
      QuantizeHoldsEveryPeriod(h, prev, period);
      CountOneMore(n, period);
      var c := (n - 1) % period;
      var latch := n / period * period;
      if c + 1 == period {
        assert r.stepped == raws[latch - 1];
      } else if n - 1 >= period {
        var latch0 := (n - 1) / period * period;
        assert latch0 == latch;
        LastMultiple(n - 1, period);
        assert q.stepped == prev[latch0 - 1] == raws[latch - 1];
        assert r.stepped == q.stepped;
      } else {
        assert r.stepped == q.stepped == h.stepped;
      }
    }
  }

  /** The value passed on to the slew: the latched value when the step knob is
      on, the raw value otherwise. */
  function AfterSteps(knob: real, stepped: real, raw: real): (r: real)
    ensures knob <= StepsOff ==> r == raw
    ensures knob > StepsOff ==> r == stepped
  {
    if knob > StepsOff then stepped else raw
  }

  /** One-pole slew: move from `z` toward `target` by the fraction `f`. */
  function Slew(z: real, target: real, f: real): (r: real)
    ensures r - target == (1.0 - f) * (z - target)
    ensures f == 1.0 ==> r == target
    ensures f == 0.0 ==> r == z
    ensures 0.0 <= f <= 1.0 ==> Between(r, z, target)
  {
    PartWayBetween(z, target, f);
    z + (target - z) * f
  }

  /** The LFO's persistent state. */
  datatype LfoState = LfoState(phase: real, sh: real, slew: real, hold: Hold)

  /** The LFO inputs fixed for a whole block: the shape selector, the phase
      increment, the slew's smoothing factor, the hold period and the step knob. */
  datatype LfoParams = LfoParams(shape: int, inc: real, smoothing: real, period: int, stepsKnob: real)

  datatype LfoOut = LfoOut(state: LfoState, value: real)

  /** The bounds the LFO keeps from one sample to the next. */
  predicate Sane(s: LfoState)
  {
    && 0.0 <= s.phase < TwoPi
    && 0.0 <= s.sh <= 1.0
    && 0.0 <= s.slew <= 1.0
    && 0.0 <= s.hold.stepped <= 1.0
    && s.hold.counter >= 0
  }

  /** Block parameters under which the LFO keeps its bounds. */
  ghost predicate Admissible(m: Libm, p: LfoParams)
  {
    && 0.0 <= p.inc < TwoPi
    && 0.0 <= p.smoothing <= 1.0
    && p.period >= 1
    && SinBounded(m)
  }

  /** One sample of the LFO. `draw` stands for the random value that the plugin
      takes from rand() / RAND_MAX when a sample-and-hold wrap happens. */
  function Tick(m: Libm, p: LfoParams, s: LfoState, draw: real): (o: LfoOut)
    ensures o.value == o.state.slew
    ensures o.state.phase == Advance(s.phase, p.inc)
    ensures o.state.sh == NextHeld(p.shape, s.phase, p.inc, s.sh, draw)
    ensures o.state.hold == Quantize(s.hold, Raw(m, p.shape, s.phase, s.sh), p.period)
    ensures o.state.slew == Slew(s.slew, AfterSteps(p.stepsKnob, o.state.hold.stepped, Raw(m, p.shape, s.phase, s.sh)), p.smoothing)
    ensures p.stepsKnob > StepsOff && p.smoothing == 1.0 ==> o.value == o.state.hold.stepped
    ensures s.hold.counter >= 0 && p.period >= 1 ==> 0 <= o.state.hold.counter < p.period
    ensures Sane(s) && Admissible(m, p) && 0.0 <= draw <= 1.0
            ==> Sane(o.state) && 0.0 <= o.value <= 1.0 && o.state.hold.counter < p.period
    ensures p.stepsKnob <= StepsOff && p.smoothing == 1.0
            ==> o.value == Raw(m, p.shape, s.phase, s.sh)
  {
    var raw := Raw(m, p.shape, s.phase, s.sh);
    var phase := Advance(s.phase, p.inc);
    var sh := NextHeld(p.shape, s.phase, p.inc, s.sh, draw);
    var hold := Quantize(s.hold, raw, p.period);
    var z := Slew(s.slew, AfterSteps(p.stepsKnob, hold.stepped, raw), p.smoothing);
    LfoOut(LfoState(phase, sh, z, hold), z)
  }
}

=== FILE: multifilter.dfy ===
/**
 The plugin instance: its persistent state, the reset on activation, and the
 processing call. A call reads the controls once, then for every sample runs
 the LFO, conditions the cutoff and resonance, runs the one selected filter
 and mixes its output with the dry input. The same output goes to both
 channels.
 */
module MultiFilter {
  import opened Numeric
  import opened Conditioner
  import opened Filters
  import Lfo
  import Comb

  datatype Option<T> = None | Some(value: T)

  /** All state that persists across samples and calls. */
  datatype State = State(
    sampleRate: real,
    biquad: Biquad,
    svf: Svf,
    ladder: Ladder,
    formants: Formants,
    comb: Comb.Ring,
    ringPhase: real,
    lfo: Lfo.LfoState)

  /** What every reachable state satisfies. */
  predicate Valid(s: State)
  {
    && s.sampleRate > 0.0
    && FormantsValid(s.formants)
    && Comb.Valid(s.comb)
    && 0.0 <= s.ringPhase < TwoPi
    && s.lfo.hold.counter >= 0
  }

  /** Every filter register and every cell of the delay line is zero. */
  predicate AtRest(s: State)
  {
    && s.biquad == Rest
    && s.svf == Svf(0.0, 0.0)
    && s.ladder == Ladder(0.0, 0.0, 0.0, 0.0)
    && FormantsValid(s.formants)
    && (forall j :: 0 <= j < FormantCount ==> s.formants.z1[j] == 0.0 && s.formants.z2[j] == 0.0)
    && Comb.Valid(s.comb)
    && (forall i :: 0 <= i < Comb.Size ==> s.comb.buffer[i] == 0.0)
  }

  const ZeroLfo: Lfo.LfoState := Lfo.LfoState(0.0, 0.0, 0.0, Lfo.Hold(0, 0.0))

  /** activate(): zero every filter register and the whole delay line, put the
      write cursor and both oscillator phases at zero and clear the LFO. Only the
      sample rate survives. */
  function Activate(s: State): (r: State)
    ensures r.sampleRate == s.sampleRate
    ensures s.sampleRate > 0.0 ==> Valid(r)
    ensures AtRest(r)
    ensures r.comb.writePos == 0 && r.ringPhase == 0.0 && r.lfo == ZeroLfo
    ensures Lfo.Sane(r.lfo)
  {
    State(s.sampleRate, Rest, Svf(0.0, 0.0), Ladder(0.0, 0.0, 0.0, 0.0),
          Formants([0.0, 0.0, 0.0], [0.0, 0.0, 0.0]), Comb.Silent(), 0.0, ZeroLfo)
  }

  /** Activation forgets everything: two instances at the same sample rate are
      identical after it, whatever they held before. */
  lemma ActivateForgets(s: State, t: State)
    requires s.sampleRate == t.sampleRate
    ensures Activate(s) == Activate(t)
    ensures Activate(Activate(s)) == Activate(s)
  {
  }

  // ---------------------------------------------------------------------------
  // Controls

  /** The control ports as bound for one call. The plugin checks only cutoff,
      LFO rate and LFO slew for being unbound, so only those are optional. */
  datatype Ports = Ports(
    cutoff: Option<real>,
    resonance: real,
    mix: real,
    filterType: real,
    vowelSelect: real,
    lfoRate: Option<real>,
    lfoShape: real,
    cutoffMod: real,
    resMod: real,
    lfoSlew: Option<real>,
    lfoSteps: real)

  predicate Bound(p: Ports)
  {
    p.cutoff.Some? && p.lfoRate.Some? && p.lfoSlew.Some?
  }

  /** The controls as read once at the start of a call. */
  datatype Block = Block(
    baseCutoff: real,
    baseResonance: real,
    mix: real,
    mode: Mode,
    vowel: int,
    cutoffMod: real,
    resMod: real,
    lfo: Lfo.LfoParams)

  /** The LFO's phase increment per sample, 2*pi*rate/sampleRate. */
  function PhaseIncrement(rate: real, sampleRate: real): (inc: real)
    requires sampleRate > 0.0
    ensures 0.0 <= rate < sampleRate ==> 0.0 <= inc < TwoPi
    ensures inc == TwoPi * (rate / sampleRate)
  {
    2.0 * Pi * rate / sampleRate
  }

  /** Read the controls of a bound call. The selectors are rounded with
      `(int)(v + 0.5f)`; the slew's smoothing factor is pow(0.001, slew). */
  function ReadBlock(m: Libm, sampleRate: real, p: Ports): (b: Block)
    requires sampleRate > 0.0 && Bound(p)
    ensures b.baseCutoff == p.cutoff.value && b.baseResonance == p.resonance && b.mix == p.mix
    ensures b.cutoffMod == p.cutoffMod && b.resMod == p.resMod && b.lfo.stepsKnob == p.lfoSteps
    ensures b.lfo.smoothing == m.pow(0.001, p.lfoSlew.value)
    ensures b.lfo.inc == PhaseIncrement(p.lfoRate.value, sampleRate)
    ensures b.mode == ModeOf(RoundKnob(p.filterType))
    ensures b.vowel == RoundKnob(p.vowelSelect)
    ensures b.lfo.shape == RoundKnob(p.lfoShape)
    ensures b.lfo.period == Lfo.HoldPeriod(p.lfoSteps, sampleRate) && b.lfo.period >= 1
    ensures 0.0 <= p.lfoRate.value < sampleRate ==> 0.0 <= b.lfo.inc < TwoPi
  {
    Block(p.cutoff.value, p.resonance, p.mix, ModeOf(RoundKnob(p.filterType)),
          RoundKnob(p.vowelSelect), p.cutoffMod, p.resMod,
          Lfo.LfoParams(RoundKnob(p.lfoShape), PhaseIncrement(p.lfoRate.value, sampleRate),
                        m.pow(0.001, p.lfoSlew.value), Lfo.HoldPeriod(p.lfoSteps, sampleRate),
                        p.lfoSteps))
  }

  /** Block controls the per-sample step can run with: the vowel table is only
      indexed with 0..4, and the hold period is positive. */
  ghost predicate Runnable(m: Libm, b: Block)
  {
    && SinBounded(m)
    && b.lfo.period >= 1
    && (b.mode == VowelFormant ==> 0 <= b.vowel < VowelCount)
  }

  // ---------------------------------------------------------------------------
  // One sample

  datatype SampleOut = SampleOut(state: State, out: real)

  /** Nothing outside the selected filter's own state differs between `s` and `t`. */
  predicate OnlyModeChanged(s: State, t: State, mode: Mode)
  {
    && t.sampleRate == s.sampleRate
    && t.lfo == s.lfo
    && (mode != BiquadLowpass ==> t.biquad == s.biquad)
    && (mode != StateVariable ==> t.svf == s.svf)
    && (mode != Ladder303 ==> t.ladder == s.ladder)
    && (mode != VowelFormant ==> t.formants == s.formants)
    && (mode != CombFilter ==> t.comb == s.comb)
    && (mode != RingMod ==> t.ringPhase == s.ringPhase)
  }

  /** Run the selected filter on one sample: exactly one algorithm runs and only
      its own state changes. The output is the wet sample. */
  function Filter(m: Libm, s: State, mode: Mode, vowel: int, p: Params, x: real): (o: SampleOut)
    requires Valid(s) && Conditioned(p, s.sampleRate) && SinBounded(m)
    requires mode == VowelFormant ==> 0 <= vowel < VowelCount
    ensures Valid(o.state)
    ensures OnlyModeChanged(s, o.state, mode)
    ensures AtRest(s) && x == 0.0 ==> AtRest(o.state) && o.out == 0.0
    ensures mode == BiquadLowpass ==>
              var f := BiquadStep(m, p.cutoff, p.resonance, s.sampleRate, s.biquad, x);
              o == SampleOut(s.(biquad := f.state), f.out)
    ensures mode == StateVariable ==>
              var f := SvfStep(m, p.cutoff, p.resonance, s.sampleRate, s.svf, x);
              o == SampleOut(s.(svf := f.state), f.out)
    ensures mode == Ladder303 ==>
              var f := LadderStep(m, p.cutoff, p.resonance, s.sampleRate, s.ladder, x);
              o == SampleOut(s.(ladder := f.state), f.out)
    ensures mode == VowelFormant ==>
              var f := VowelStep(m, vowel, p.cutoff, p.resonance, s.sampleRate, s.formants, x);
              o == SampleOut(s.(formants := f.state), f.out)
    ensures mode == CombFilter ==>
              var f := Comb.Step(s.comb, Comb.Delay(s.sampleRate, p.cutoff), CombFeedback(p.resonance), x);
              o == SampleOut(s.(comb := f.ring), f.wet)
    ensures mode == RingMod ==>
              var f := RingStep(m, p.cutoff, p.resonance, s.sampleRate, s.ringPhase, x);
              o == SampleOut(s.(ringPhase := f.phase), f.out)
  {
    match mode
    case BiquadLowpass =>
      var f := BiquadStep(m, p.cutoff, p.resonance, s.sampleRate, s.biquad, x);
      SampleOut(s.(biquad := f.state), f.out)
    case StateVariable =>
      var f := SvfStep(m, p.cutoff, p.resonance, s.sampleRate, s.svf, x);
      SampleOut(s.(svf := f.state), f.out)
    case Ladder303 =>
      var f := LadderStep(m, p.cutoff, p.resonance, s.sampleRate, s.ladder, x);
      SampleOut(s.(ladder := f.state), f.out)
    case VowelFormant =>
      var f := VowelStep(m, vowel, p.cutoff, p.resonance, s.sampleRate, s.formants, x);
      SampleOut(s.(formants := f.state), f.out)
    case CombFilter =>
      var f := Comb.Step(s.comb, Comb.Delay(s.sampleRate, p.cutoff), CombFeedback(p.resonance), x);
      assert AtRest(s) ==> Comb.Read(s.comb, Comb.Delay(s.sampleRate, p.cutoff)) == 0.0;
      SampleOut(s.(comb := f.ring), f.wet)
    case RingMod =>
      var f := RingStep(m, p.cutoff, p.resonance, s.sampleRate, s.ringPhase, x);
      SampleOut(s.(ringPhase := f.phase), f.out)
  }

  /** In comb mode the wet output follows the comb recurrence on the history the
      delay line remembers: the input plus the resonance-derived feedback times
      the output Delay(sampleRate, cutoff) samples back. At the resonance floor
      0.707 the feedback is zero and the wet output is the dry input itself. */
  lemma CombMode(m: Libm, s: State, vowel: int, p: Params, x: real, h: seq<real>, d: real, fb: real)
    requires Valid(s) && Conditioned(p, s.sampleRate) && SinBounded(m)
    requires Comb.Remembers(s.comb, h)
    requires d == Comb.Delay(s.sampleRate, p.cutoff) && fb == CombFeedback(p.resonance)
    ensures 1.0 <= d <= Comb.MaxDelay
    ensures var o := Filter(m, s, CombFilter, vowel, p, x);
            && o.out == x + fb * Comb.Delayed(h, d)
            && Comb.Remembers(o.state.comb, h + [o.out])
            && (p.resonance == MinResonance ==> o.out == x)
  {
    CombBranch(m, s, vowel, p, x, h);
    Comb.CombRecurrence(s.comb, h, d, fb, x);
  }

  /** Filter's comb branch is one step of the comb delay line. */
  lemma CombBranch(m: Libm, s: State, vowel: int, p: Params, x: real, h: seq<real>)
    requires Valid(s) && Conditioned(p, s.sampleRate) && SinBounded(m)
    requires Comb.Remembers(s.comb, h)
    ensures var c := Comb.Step(s.comb, Comb.Delay(s.sampleRate, p.cutoff), CombFeedback(p.resonance), x);
            var o := Filter(m, s, CombFilter, vowel, p, x);
            o.out == c.wet && o.state.comb == c.ring
  {
  }

  /** The dry/wet mix, mix * wet + (1 - mix) * dry. */
  function Mix(mix: real, wet: real, dry: real): (out: real)
    ensures out - dry == mix * (wet - dry)
    ensures mix == 0.0 ==> out == dry
    ensures mix == 1.0 ==> out == wet
    ensures wet == 0.0 && dry == 0.0 ==> out == 0.0
  {
    mix * wet + (1.0 - mix) * dry
  }

  /** With the mix in [0, 1] the output lies between the dry and the wet sample. */
  lemma MixBetween(mix: real, wet: real, dry: real)
    requires 0.0 <= mix <= 1.0
    ensures Between(Mix(mix, wet, dry), dry, wet)
  {
    var d := wet - dry;
    assert Mix(mix, wet, dry) == dry + mix * d;
    if d >= 0.0 {
      assert 0.0 <= mix * d <= 1.0 * d;
    } else {
      assert 1.0 * d <= mix * d <= 0.0;
    }
  }

  /** One sample: LFO, conditioning, the selected filter, then the mixer.
      `draw` is the random value used if the sample-and-hold LFO wraps. */
  function Sample(m: Libm, b: Block, s: State, x: real, draw: real): (o: SampleOut)
    requires Valid(s) && Runnable(m, b)
    ensures var l := Lfo.Tick(m, b.lfo, s.lfo, draw);
            && o.state.lfo == l.state
            && o == (var f := Filter(m, s.(lfo := l.state), b.mode, b.vowel,
                                      Condition(b.baseCutoff, b.baseResonance, l.value, b.cutoffMod, b.resMod, s.sampleRate), x);
                     SampleOut(f.state, Mix(b.mix, f.out, x)))
    ensures Valid(o.state)
    ensures o.state.sampleRate == s.sampleRate
    ensures OnlyModeChanged(s.(lfo := o.state.lfo), o.state, b.mode)
    ensures Lfo.Sane(s.lfo) && Lfo.Admissible(m, b.lfo) && 0.0 <= draw <= 1.0 ==> Lfo.Sane(o.state.lfo)
    ensures b.mix == 0.0 ==> o.out == x
    ensures AtRest(s) && x == 0.0 ==> AtRest(o.state) && o.out == 0.0
  {
    var l := Lfo.Tick(m, b.lfo, s.lfo, draw);
    var p := Condition(b.baseCutoff, b.baseResonance, l.value, b.cutoffMod, b.resMod, s.sampleRate);
    var f := Filter(m, s.(lfo := l.state), b.mode, b.vowel, p, x);
    SampleOut(f.state, Mix(b.mix, f.out, x))
  }

  // ---------------------------------------------------------------------------
  // A block of samples

  datatype BlockOut = BlockOut(state: State, outs: seq<real>)

  /** Run `Sample` over the input block in order, threading the state. */
  function Process(m: Libm, b: Block, s: State, xs: seq<real>, draws: seq<real>): (o: BlockOut)
    requires Valid(s) && Runnable(m, b) && |draws| == |xs|
    ensures Valid(o.state)
    ensures o.state.sampleRate == s.sampleRate
    ensures |o.outs| == |xs|
    decreases |xs|
  {
    if |xs| == 0 then BlockOut(s, [])
    else
      var first := Sample(m, b, s, xs[0], draws[0]);
      var rest := Process(m, b, first.state, xs[1..], draws[1..]);
      BlockOut(rest.state, [first.out] + rest.outs)
  }

  /** Processing two blocks one after the other is processing their
      concatenation: every sample starts from the state the previous one left. */
  lemma {:induction false} ProcessSplit(m: Libm, b: Block, s: State, xs: seq<real>, ys: seq<real>,
                                        ds: seq<real>, es: seq<real>)
    requires Valid(s) && Runnable(m, b) && |ds| == |xs| && |es| == |ys|
    ensures var o1 := Process(m, b, s, xs, ds);
            var o2 := Process(m, b, o1.state, ys, es);
            Process(m, b, s, xs + ys, ds + es) == BlockOut(o2.state, o1.outs + o2.outs)
    decreases |xs|
  {
    if |xs| > 0 {
      var first := Sample(m, b, s, xs[0], ds[0]);
      var r1 := Process(m, b, first.state, xs[1..], ds[1..]);
      var o2 := Process(m, b, r1.state, ys, es);
      ProcessSplit(m, b, first.state, xs[1..], ys, ds[1..], es);
      ProcessFirst(m, b, s, xs, ds);
      ProcessConcatFirst(m, b, s, xs, ys, ds, es);
      SplitGlue(Process(m, b, s, xs, ds), r1, o2, Process(m, b, first.state, xs[1..] + ys, ds[1..] + es),
                Process(m, b, s, xs + ys, ds + es), first.out);
    } else {
      assert xs + ys == ys && ds + es == es;
    }
  }

  /** The bookkeeping of ProcessSplit's inductive step: the first output goes
      in front, the final state is the second block's. */
  lemma SplitGlue(o1: BlockOut, r1: BlockOut, o2: BlockOut, whole: BlockOut, all: BlockOut, first: real)
    requires o1 == BlockOut(r1.state, [first] + r1.outs)
    requires whole == BlockOut(o2.state, r1.outs + o2.outs)
    requires all == BlockOut(whole.state, [first] + whole.outs)
    ensures all == BlockOut(o2.state, o1.outs + o2.outs)
  {
    assert [first] + (r1.outs + o2.outs) == ([first] + r1.outs) + o2.outs;
  }

  /** Unfolding the first sample of a concatenation whose first part is non-empty. */
  lemma ProcessConcatFirst(m: Libm, b: Block, s: State, xs: seq<real>, ys: seq<real>,
                           ds: seq<real>, es: seq<real>)
    requires Valid(s) && Runnable(m, b) && |ds| == |xs| && |es| == |ys| && |xs| > 0
    ensures var first := Sample(m, b, s, xs[0], ds[0]);
            var whole := Process(m, b, first.state, xs[1..] + ys, ds[1..] + es);
            Process(m, b, s, xs + ys, ds + es) == BlockOut(whole.state, [first.out] + whole.outs)
  {
    assert (xs + ys)[0] == xs[0] && (ds + es)[0] == ds[0];
    assert (xs + ys)[1..] == xs[1..] + ys && (ds + es)[1..] == ds[1..] + es;
    ProcessFirst(m, b, s, xs + ys, ds + es);
  }

  /** A non-empty block is its first sample followed by the rest of the block. */
  lemma ProcessFirst(m: Libm, b: Block, s: State, xs: seq<real>, ds: seq<real>)
    requires Valid(s) && Runnable(m, b) && |ds| == |xs| && |xs| > 0
    ensures var first := Sample(m, b, s, xs[0], ds[0]);
            var rest := Process(m, b, first.state, xs[1..], ds[1..]);
            Process(m, b, s, xs, ds) == BlockOut(rest.state, [first.out] + rest.outs)
  {
  }

  /** Silence in, silence out, from a state at rest; the state stays at rest. */
  lemma {:induction false} QuietBlock(m: Libm, b: Block, s: State, xs: seq<real>, draws: seq<real>)
    requires Valid(s) && Runnable(m, b) && |draws| == |xs| && AtRest(s)
    requires forall i :: 0 <= i < |xs| ==> xs[i] == 0.0
    ensures AtRest(Process(m, b, s, xs, draws).state)
    ensures forall i :: 0 <= i < |xs| ==> Process(m, b, s, xs, draws).outs[i] == 0.0
    decreases |xs|
  {
    if |xs| > 0 {
      var first := Sample(m, b, s, xs[0], draws[0]);
      QuietBlock(m, b, first.state, xs[1..], draws[1..]);
    }
  }

  /** After activation a silent block produces silence in every mode: no
      ringing from before the activation survives. */
  lemma SilenceAfterActivation(m: Libm, b: Block, s: State, xs: seq<real>, draws: seq<real>)
    requires s.sampleRate > 0.0 && Runnable(m, b) && |draws| == |xs|
    requires forall i :: 0 <= i < |xs| ==> xs[i] == 0.0
    ensures forall i :: 0 <= i < |xs| ==> Process(m, b, Activate(s), xs, draws).outs[i] == 0.0
  {
    QuietBlock(m, b, Activate(s), xs, draws);
  }

  /** With the mix at zero the whole output block is the dry input. */
  lemma {:induction false} DryBlock(m: Libm, b: Block, s: State, xs: seq<real>, draws: seq<real>)
    requires Valid(s) && Runnable(m, b) && |draws| == |xs| && b.mix == 0.0
    ensures Process(m, b, s, xs, draws).outs == xs
    decreases |xs|
  {
    if |xs| > 0 {
      var first := Sample(m, b, s, xs[0], draws[0]);
      var rest := Process(m, b, first.state, xs[1..], draws[1..]);
      assert Process(m, b, s, xs, draws).outs == [first.out] + rest.outs;
      DryBlock(m, b, first.state, xs[1..], draws[1..]);
      assert first.out == xs[0];
      assert xs == [xs[0]] + xs[1..];
    }
  }

  /** Over a whole block the LFO keeps its phase in [0, 2*pi) and its values in
      [0, 1], provided the rate is below the sample rate (increment under 2*pi),
      the smoothing factor is in [0, 1] and every random draw is in [0, 1]. */
  lemma {:induction false} LfoStaysSane(m: Libm, b: Block, s: State, xs: seq<real>, draws: seq<real>)
    requires Valid(s) && Runnable(m, b) && |draws| == |xs|
    requires Lfo.Sane(s.lfo) && Lfo.Admissible(m, b.lfo)
    requires forall i :: 0 <= i < |draws| ==> 0.0 <= draws[i] <= 1.0
    ensures Lfo.Sane(Process(m, b, s, xs, draws).state.lfo)
    decreases |xs|
  {
    if |xs| > 0 {
      var first := Sample(m, b, s, xs[0], draws[0]);
      LfoStaysSane(m, b, first.state, xs[1..], draws[1..]);
    }
  }

  // ---------------------------------------------------------------------------
  // The processing call

  /** Both output channels of a call. */
  datatype Stereo = Stereo(left: seq<real>, right: seq<real>)

  /** A call's effect: the new state, and the outputs written, if any. */
  datatype RunOut = RunOut(state: State, output: Option<Stereo>)

  /** Whether the vowel selector is usable when the vowel filter is chosen. */
  predicate VowelInRange(p: Ports)
  {
    ModeOf(RoundKnob(p.filterType)) == VowelFormant ==> 0 <= RoundKnob(p.vowelSelect) < VowelCount
  }

  /** run(): with cutoff, LFO rate or LFO slew unbound it returns at once, with
      no state change and no output written. Otherwise it processes the block and
      writes the same samples to both channels. `draws` supplies one random value
      per sample for the sample-and-hold shape. */
  function Run(m: Libm, s: State, p: Ports, input: seq<real>, draws: seq<real>): (r: RunOut)
    requires Valid(s) && SinBounded(m) && |draws| == |input|
    requires Bound(p) ==> VowelInRange(p)
    ensures !Bound(p) ==> r == RunOut(s, None)
    ensures Bound(p) ==> r.output.Some?
    ensures Bound(p) ==>
              var o := Process(m, ReadBlock(m, s.sampleRate, p), s, input, draws);
              r == RunOut(o.state, Some(Stereo(o.outs, o.outs)))
    ensures r.output.Some? ==> |r.output.value.left| == |input|
    ensures r.output.Some? ==> r.output.value.left == r.output.value.right
    ensures Valid(r.state)
    ensures r.state.sampleRate == s.sampleRate
  {
    if !Bound(p) then RunOut(s, None)
    else
      var b := ReadBlock(m, s.sampleRate, p);
      var o := Process(m, b, s, input, draws);
      RunOut(o.state, Some(Stereo(o.outs, o.outs)))
  }

  /** With every checked port bound and the mix control at zero, a call writes
      the dry input unchanged to both channels. */
  lemma DryRun(m: Libm, s: State, p: Ports, input: seq<real>, draws: seq<real>)
    requires Valid(s) && SinBounded(m) && |draws| == |input|
    requires Bound(p) && VowelInRange(p) && p.mix == 0.0
    ensures Run(m, s, p, input, draws).output == Some(Stereo(input, input))
  {
    var b := ReadBlock(m, s.sampleRate, p);
    DryBlock(m, b, s, input, draws);
  }
}

=== FILE: numeric.dfy ===
/**
 Numeric ground rules shared by the whole model: the value of pi the plugin
 uses, the C conversions from double to int, and the C math library, which the
 model takes as a parameter instead of defining.
 */
module Numeric {

  /** M_PI as the plugin defines it when the platform does not. */
  const Pi: real := 3.14159265358979323846
  const TwoPi: real := 2.0 * Pi

  /** C's conversion of a double to an int: truncation toward zero. */
  function Trunc(x: real): (r: int)
    ensures 0.0 <= x ==> 0 <= r && r as real <= x < r as real + 1.0
    ensures x < 0.0 ==> r <= 0 && r as real - 1.0 < x <= r as real
  {
    if x >= 0.0 then x.Floor else -((-x).Floor)
  }

  /** The smallest integer not below `x`. */
  function Ceil(x: real): (r: int)
    ensures r as real - 1.0 < x <= r as real
  {
    -((-x).Floor)
  }

  /** How the plugin reads an integer selector from a float control: `(int)(v + 0.5f)`.
      This rounds half up for every value from -0.5 on, but below that it
      truncates toward zero, so values in (-1.5, -0.5) also read as 0. */
  function RoundKnob(v: real): (r: int)
    ensures v >= -0.5 ==> r == (v + 0.5).Floor
    ensures -1.5 < v < -0.5 ==> r == 0
    ensures v <= -1.5 ==> r == Ceil(v + 0.5) && r <= -1
  {
    Trunc(v + 0.5)
  }

  /** A selector written as a whole number reads back as that number, when it is not negative. */
  lemma RoundKnobWholeNumbers(n: int)
    requires n >= 0
    ensures RoundKnob(n as real) == n
  {
  }

  /** The C math library calls the plugin makes. Their values are not modelled;
      every operation that needs one receives it here. */
  datatype Libm = Libm(
    sin: real -> real,
    cos: real -> real,
    tan: real -> real,
    exp: real -> real,
    tanh: real -> real,
    pow: (real, real) -> real)

  /** The one fact about the math library the model relies on: sine lies in [-1, 1]. */
  ghost predicate SinBounded(m: Libm)
  {
    forall x :: -1.0 <= m.sin(x) <= 1.0
  }

  /** `r` lies between `a` and `b`, in whichever order they come. */
  predicate Between(r: real, a: real, b: real)
  {
    (a <= r <= b) || (b <= r <= a)
  }

  /** Moving the fraction `f` in [0, 1] of the way from `a` toward `b` stays between them. */
  lemma PartWayBetween(a: real, b: real, f: real)
    ensures 0.0 <= f <= 1.0 ==> Between(a + (b - a) * f, a, b)
  {
    var d := b - a;
    if 0.0 <= f <= 1.0 {
      if d >= 0.0 {
        assert 0.0 <= d * f <= d * 1.0;
        assert a <= a + d * f <= b;
      } else {
        assert d * 1.0 <= d * f <= 0.0;
        assert b <= a + d * f <= a;
      }
    }
  }

  lemma MulAtLeast(a: int, m: int)
    requires a >= 1 && m > 0
    ensures a * m >= m
  {
    var b := a - 1;
    assert a * m == b * m + m;
    assert b * m >= 0;
  }

  /** Quotient and remainder are the only ones with `x == q * m + r` and `0 <= r < m`. */
  lemma ModUnique(x: int, m: int, q: int, r: int)
    requires m > 0 && x == q * m + r && 0 <= r < m
    ensures x / m == q && x % m == r
  {
    var q0, r0 := x / m, x % m;
    assert (q0 - q) * m == r - r0;
    if q0 > q {
      MulAtLeast(q0 - q, m);
    } else if q0 < q {
      MulAtLeast(q - q0, m);
    }
  }
}
